=== FILE: README.md ===
# Chooser: a verified model of the touch-arbitration core

The program is a party-game picker for a shared touch screen. Every finger on
the screen is a participant. Once no finger has been placed or lifted for a
while, the round resolves in one of two ways. In **Finger** mode one finger is kept as the
winner. In **Groups** mode every finger is coloured into one of two teams. This
project models the program's state machine in `main.js`:

- the `fingers` Map from pointer id to `{x, y, color, isWinner}`, with its
  insertion order;
- the `resolved` flag, the mode button's text (`Finger`/`Groups`) and its
  enabled flag;
- the current `ColorGenerator`, a LIFO recycle stack in front of a hue counter
  that advances by the golden angle;
- the `timeout` that debounces `resolve`.

Every handler is a pure function from state to state:

- `setFinger`, `updateFinger` and `deleteFinger`;
- the mode button's click handler;
- the resolve timeout going off.

Each `Math.random()` call becomes an explicit draw of type `Random.Unit`, a
real in [0, 1). Indices are `trunc(draw * n)` over the exact real product, which
reaches the same set of indices as the program's double arithmetic.

Files, one module each:

- `random.dfy`: draws and `Pick`.
- `seqs.dfy`: duplicate-free sequences.
- `colors.dfy`: colours, `ColorGenerator`, `oppositeColors`.
- `shuffle.dfy`: Fisher–Yates.
- `registry.dfy`: the `fingers` Map with its key order.
- `resolution.dfy`: `resolve`.
- `timeouts.dfy`: `setTimeout`/`clearTimeout` as handles.
- `chooser.dfy`: the global state and the event handlers.
- `invariants.dfy`: what holds in every reachable state, and the debounce
  guarantee.
- `scenarios.dfy`: whole rounds from program start.

## Model

| member | source | states |
|---|---|---|
| Random.Pick | main.js:58 | `trunc(random() * n)` is always an index below n |
| Random.PickReachesEveryIndex | main.js:70 | every index below n is produced by some draw, so the parameterised draws cover every random outcome |
| Colors.NewGenerator | main.js:22-25 | a new generator starts at a hue in [0, 360) with an empty recycle stack |
| Colors.Discard | main.js:34-36 | `discard` pushes the colour on top of the stack, leaves every older entry in place beneath it and leaves the hue alone |
| Colors.Next | main.js:27-32 | with a non-empty stack, `next` is the inverse of `discard`: pushing the result back restores the generator; with an empty stack it returns the hue h and advances h by the golden angle; h never decreases |
| Colors.NextAfterDiscard | main.js:27-36 | `discard(c)` followed by `next()` returns c and restores the generator exactly |
| Colors.LifoRecycle | main.js:27-36 | after `discard(c1); discard(c2)`, three calls of `next` return c2, then c1, and only then the fresh hue |
| Colors.FreshHues | main.js:29-31 | with nothing to recycle, the i-th colour is the hue h + i × golden angle, and the generator ends n golden angles further |
| Colors.FreshHuesIncrease | main.js:29-31 | freshly synthesized hues strictly increase, so any two of them differ |
| Colors.HueLeavesCircle | main.js:30 | the hue is never wrapped: the fourth fresh hue of any new generator is at least 360 |
| Colors.OppositeColors | main.js:16-19 | the two team colours are hues 180 degrees apart with the base in [0, 360), and they differ |
| Shuffling.Swap | main.js:59 | the destructuring swap exchanges two positions, leaves the others unchanged and keeps the multiset |
| Shuffling.SwapDistinct | main.js:59 | a swap keeps a duplicate-free list duplicate-free |
| Shuffling.ShuffleFrom | main.js:57-60 | any run of the loop's swaps keeps the length and the multiset of elements |
| Shuffling.ShufflePermutes | main.js:56-63 | for any choices j ≤ i, the shuffle returns a permutation of its input: same length, same multiset, same elements |
| Shuffling.ShuffleFromDistinct | main.js:56-63 | shuffling a duplicate-free list (the keys of a Map) gives a duplicate-free list |
| Shuffling.Shuffle | main.js:56-63 | the in-place loop, as written, computes the shuffle and preserves the multiset |
| Shuffling.ChoiceAt | main.js:58 | the index drawn for loop counter i lies in [0, i] |
| Shuffling.Choices | main.js:57-58 | the draws the program makes always form valid Fisher–Yates choices |
| Registry.Put | main.js:101-105 | `fingers.set`: a new id is appended to the key order and an existing id keeps its place; each key appears exactly once |
| Registry.Remove | main.js:125 | `fingers.delete` removes exactly that key and shrinks the Map by one when the key was present; any two remaining keys stand in the same insertion order as before, and no new ordering arises; otherwise nothing changes |
| Seqs.WithoutPrecedes | main.js:125 | deleting a key keeps, in both directions, the relative order of every two other keys of the Map's key order |
| Registry.Single | main.js:73-74 | `clear()` then `set(winner)` leaves a Map of exactly one entry |
| Registry.Change | main.js:115-116 | mutating the record of a present key changes that entry only and keeps the key order |
| Resolution.Winner | main.js:70-71 | the winner index picks a key that is present in the Map |
| Resolution.ResolveFinger | main.js:69-75 | Finger mode keeps exactly one of the original keys. Its record is flagged as winner with position and colour unchanged. With an empty Map, the program fails before touching it |
| Resolution.EveryFingerCanWin | main.js:70-74 | every finger present is kept by some draw |
| Registry.Size | main.js:91 | `fingers.size` equals the length of the key order: every key is listed exactly once |
| Resolution.TeamColor | main.js:78-82 | position i wears the first team colour exactly when i < n / 2 (floor), the second otherwise |
| Resolution.CutIsHalf | main.js:78-82 | `i < (n - 1) / 2` in real division holds exactly when i < n / 2 (floor) |
| Resolution.TeamPair | main.js:79 | the team colours are two hues exactly 180° apart, the first in [0, 360), drawn after the shuffle's n - 1 draws |
| Resolution.PaintFrom | main.js:81-82 | the colouring loop keeps the keys and their order, and changes only colours |
| Resolution.PaintColors | main.js:81-82 | after the loop, the finger at shuffled position j wears the colour chosen for j, and fingers the loop did not reach keep their records |
| Resolution.GroupOrder | main.js:67-77 | the shuffled id list is duplicate-free and lists exactly the keys of the Map |
| Resolution.ResolveGroups | main.js:76-83 | Groups mode keeps the key set and order. Every finger ends in one of the two team colours with position and winner flag unchanged |
| Resolution.GroupsColorByPosition | main.js:78-82 | the finger at shuffled position j gets the first colour exactly when j < n / 2 |
| Resolution.TeamIsSlice | main.js:81-82 | a colour that marks exactly positions lo..hi of the shuffled keys has hi - lo wearers |
| Resolution.GroupsTeamSizes | main.js:76-83 | the two teams have exactly n / 2 (floor) and n - n / 2 members |
| Timeouts.Arm | main.js:89-92 | clearing and re-scheduling leaves a resolve pending exactly when it is due. The pending handle is newer than every handle handed out before |
| Timeouts.Fire | main.js:92 | a timer goes off only if it is the pending one, and afterwards nothing is pending |
| Chooser.Init | main.js:9-10 | the program starts with no fingers, unresolved, in Finger mode with an enabled button and no pending resolve |
| Chooser.SetMyTimeout | main.js:88-93 | every earlier pending resolve is cancelled; a resolve is pending exactly when the round is unresolved with at least two fingers; nothing else changes |
| Chooser.Toggle | main.js:39-41 | an enabled button flips the mode and changes nothing else; a disabled one does nothing |
| Chooser.SetFinger | main.js:95-109 | once resolved, nothing changes. Otherwise the finger is recorded with `Map.set` order at its position; in Finger mode it takes the generator's next colour and the generator advances, in Groups mode it is white and the generator is untouched; the button is disabled; a resolve is pending exactly when two or more fingers are down, under a handle newer than every earlier one |
| Chooser.UpdateFinger | main.js:111-118 | an unknown id changes nothing; a known id changes only that finger's x and y |
| Chooser.DeleteFinger | main.js:120-137 | an unknown id changes nothing. A known id is removed. Its colour is recycled while fingers remain. The last removal installs a fresh generator, clears `resolved` and re-enables the button. The Map is the `Map.delete` result, so the other keys keep their order. The timeout is re-armed: a resolve is pending exactly when the round is unresolved with two or more fingers, under a handle newer than every earlier one, so the quiescence window restarts |
| Chooser.Resolve | main.js:65-84 | `resolve` sets `resolved` and changes only the fingers, in Finger mode without recycling the losers' colours |
| Chooser.Fire | main.js:92 | a cancelled or superseded timeout does nothing; the pending one runs `resolve` |
| Invariants.InitInv | main.js:9-10 | the program's start state satisfies the invariant |
| Invariants.PaletteOfSubset | main.js:73-74 | keeping some fingers with their colours keeps Finger-mode colours collision-free |
| Invariants.PaletteAfterAdmit | main.js:101-105 | in Finger mode a new finger's colour, recycled or fresh, collides with no finger and no stacked colour |
| Invariants.PaletteAfterRemove | main.js:125-128 | recycling a lifted finger's colour keeps the stack duplicate-free and disjoint from the remaining fingers' colours |
| Invariants.SetFingerInv | main.js:95-109 | `setFinger` preserves the invariant |
| Invariants.UpdateFingerInv | main.js:111-118 | `updateFinger` preserves the invariant |
| Invariants.DeleteFingerInv | main.js:120-137 | `deleteFinger` preserves the invariant |
| Invariants.ToggleInv | main.js:39-41 | the mode button preserves the invariant |
| Invariants.FireInv | main.js:65-92 | a resolve timeout preserves the invariant |
| Invariants.StepInv | main.js:139-142 | every input event preserves the invariant |
| Invariants.RunInv | main.js:139-142 | any sequence of events preserves the invariant |
| Invariants.ReachableInv | main.js:139-142 | every reachable state satisfies it. A resolve is pending only for an unresolved round of two or more fingers. The button is enabled exactly when no finger is down. Only a resolved Finger round flags a finger, and that finger is alone. Unresolved Groups fingers are white. Finger-mode colours never collide |
| Invariants.FireResolvesOnlyFullRounds | main.js:91-92 | a timeout that resolves a round always finds at least two fingers |
| Invariants.FingerRoundOneWinner | main.js:69-75 | a resolving Finger round keeps exactly one original finger. It is flagged as winner, where it was and in its colour. The generator is untouched |
| Invariants.GroupsRoundTwoTeams | main.js:76-83 | a resolving Groups round keeps every finger and splits them into teams of n / 2 and n - n / 2 |
| Invariants.AdmittedColorIsNew | main.js:104 | in Finger mode a new finger never shares its colour with another finger already down |
| Invariants.StepKeepsHandleCleared | main.js:89 | no event revives a timeout handle that is no longer pending |
| Invariants.ClearedNeverFires | main.js:88-93 | a cancelled resolve never runs, whatever events follow |
| Invariants.AdmissionCancelsEarlierResolve | main.js:107 | a new finger cancels every earlier scheduled resolve for good |
| Scenarios.RunSnoc | main.js:139-142 | processing events one after another composes |
| Scenarios.ThreeFingersOneWinner | main.js:95-109 | three fingers in Finger mode: the resolve armed by the second is superseded by the third, and the third's leaves one flagged winner |
| Scenarios.FourGroupFingersArmed | main.js:39-41 | switching to Groups and placing four fingers leaves the third handle pending |
| Scenarios.TwoTeamsOfFour | main.js:76-83 | an armed Groups round of four fingers ends in two teams of two |
| Scenarios.FourFingersTwoTeams | main.js:76-83 | four fingers in Groups mode end in two teams of two in opposite colours |
| Scenarios.LiftBeforeQuiescence | main.js:127-135 | lifting one of two fingers before the timeout cancels the pending resolve, and the round stays unresolved |

## Behaviour as written

Some of the code's behaviour is easy to misread; the model follows the code as
written:

- The hue is never reduced modulo 360 (main.js:30). It grows by the golden
  angle with every fresh colour. `Colors.HueLeavesCircle` shows it passing 360.
  The program relies on CSS to read an angle beyond 360 correctly.
- Finger-mode `resolve` drops the losers with `fingers.clear()`. Their colours
  are not returned to the generator (main.js:73). The generator is replaced
  when the winner is lifted anyway.
- `deleteFinger` recycles a colour only while other fingers remain. The last
  removal installs a new generator instead (main.js:127-133). In Groups mode
  the recycled colours are white or team colours. The invariant shows that the
  stack is empty whenever the Map is, so these never reach a Finger round.
- Nothing in the handlers checks the mode button. Switching mode mid-round is
  prevented only because the button is disabled while any finger is down. The
  model treats a click on a disabled button as no event, and proves that the
  button is enabled exactly when no finger is down.
- A `pointerdown` for an id that is already present replaces that finger's
  record, and in Finger mode draws a new colour. The old colour is not
  recycled.
- `resolve` on an empty Map in Finger mode fails at `winner.isWinner` after
  setting `resolved`. The model keeps that effect. The invariant shows that a
  resolve only runs with two or more fingers, so this never happens.

## Left out

- Canvas work is not modelled: resizing, device-pixel-ratio scaling and
  drawing the disks and the even-odd winner mask (main.js:45-54, 144-164).
  It is presentation only.
- DOM plumbing is not modelled: `querySelector`, `addEventListener` and
  `preventDefault` (main.js:6-8, 96, 139-142). `pointerup` and
  `pointercancel` are one `Up` event. The button is a boolean flag.
- Real time is not modelled. The 2500 ms quiescence delay becomes an explicit
  `Timeout(handle)` event that any sequence of events may contain.
- The 2000 ms cooldown of a post-resolution lift (main.js:124) is collapsed
  into one atomic removal. Interleavings of concurrent cooldowns are not
  modelled. For example, two cooldowns for the same id could both pass the
  presence check before either deletes.
- The distribution of `Math.random()` is not modelled. Its draws are
  parameters, and nothing is claimed about uniformity or bias.
- Floating point is not modelled. Hues are exact reals. The golden angle is the
  shortest decimal that rounds to the double `180 * (3 - Math.sqrt(5))`
  evaluates to; it differs from that double by about 7e-16. The `oklch(...)` and
  `rgba(...)` strings and their lightness and chroma constants are abstracted to
  `Hue(h)` and `White`.
- Random.Pick: index products `draw * n` are exact reals, while the program
  truncates the rounded double product. A given draw can therefore select the
  neighbouring index (0.3333333333333333 with n = 3 gives 1 in the program and
  0 here). The set of reachable indices is the same, which is all the
  contracts rely on.
- The program only reads a colour's truthiness, which every colour string has.
  The model reads it as presence of the finger.
- Any spacing claim about golden-angle hues beyond "strictly increasing, hence
  distinct" is not modelled.
- Random draws are taken at the moment of the event that uses them. The model
  does not connect draws across events into one global random stream.

=== FILE: chooser.dfy ===
/** The program state and its event handlers: pointerdown (`setFinger`),
    pointermove (`updateFinger`), pointerup/pointercancel (`deleteFinger`), a
    click on the mode button, and the resolve timeout going off. Every handler
    is a total function from state to state; the random draws it makes are
    parameters. */
module Chooser {
  import opened Random
  import opened Colors
  import opened Registry
  import opened Resolution
  import Timeouts

  /** The program's mutable globals: the `fingers` Map, `resolved`, the mode
      button's text and enabled flag, `colorGenerator` and `timeout`. */
  datatype Game = Game(
    fingers: Registry,
    resolved: bool,
    mode: Mode,
    toggleEnabled: bool,
    gen: ColorGenerator,
    timer: Timeouts.Timer)

  /** Program start: no fingers, unresolved, 'Finger' on an enabled button. */
  function Init(draw: Unit): (g: Game)
    ensures Size(g.fingers) == 0 && !g.resolved && g.toggleEnabled
    ensures g.mode == FingerMode
    ensures !g.timer.slot.Scheduled?
  {
    Game(Empty, false, FingerMode, true, NewGenerator(draw), Timeouts.Start)
  }

  /** `setMyTimeout()`: cancel the pending resolve, and schedule a new one only
      while the round is unresolved and at least two fingers are down. */
  function SetMyTimeout(g: Game): (r: Game)
    ensures r == g.(timer := r.timer)
    ensures r.timer.WellFormed()
    ensures r.timer.slot.Scheduled? <==> !g.resolved && Size(g.fingers) >= 2
    ensures r.timer.slot.Scheduled? ==> r.timer.slot.handle >= g.timer.issued
    ensures r.timer.issued >= g.timer.issued
  {
    g.(timer := Timeouts.Arm(g.timer, !g.resolved && Size(g.fingers) >= 2))
  }

  /** `type.onclick`: flips the mode; a disabled button receives no click. */
  function Toggle(g: Game): (r: Game)
    ensures g.toggleEnabled ==> r.mode != g.mode && r == g.(mode := r.mode)
    ensures !g.toggleEnabled ==> r == g
  {
    if !g.toggleEnabled then g
    else g.(mode := if g.mode == FingerMode then GroupsMode else FingerMode)
  }

  /** The colour a new finger gets and the generator afterwards: the next
      generated colour in Finger mode, white in Groups mode. */
  function NewColor(g: Game): (Color, ColorGenerator) {
    if g.mode == FingerMode then Next(g.gen) else (White, g.gen)
  }

  /** `setFinger(event)`: ignored once the round is resolved; otherwise it locks
      the mode button, records the finger (replacing any record under the same
      id) and re-arms the resolve timeout. */
  function SetFinger(g: Game, id: Id, x: real, y: real): (r: Game)
    ensures g.resolved ==> r == g
    ensures !g.resolved ==>
      && r.fingers == Put(g.fingers, id, Finger(x, y, NewColor(g).0, false))
      && (g.mode == FingerMode ==> (r.fingers.entries[id].color, r.gen) == Next(g.gen))
      && (g.mode == GroupsMode ==> r.fingers.entries[id].color == White && r.gen == g.gen)
      && !r.toggleEnabled
      && r.mode == g.mode && !r.resolved
      && (r.timer.slot.Scheduled? <==> Size(r.fingers) >= 2)
      && (r.timer.slot.Scheduled? ==> r.timer.slot.handle >= g.timer.issued)
  {
    if g.resolved then g
    else
      var (c, gen) := NewColor(g);
      SetMyTimeout(g.(toggleEnabled := false, fingers := Put(g.fingers, id, Finger(x, y, c, false)), gen := gen))
  }

  /** `updateFinger(event)`: moves a known finger; anything else is ignored. */
  function UpdateFinger(g: Game, id: Id, x: real, y: real): (r: Game)
    ensures id !in g.fingers.entries ==> r == g
    ensures id in g.fingers.entries ==>
      && r == g.(fingers := r.fingers)
      && r.fingers.order == g.fingers.order
      && r.fingers.entries == g.fingers.entries[id := g.fingers.entries[id].(x := x, y := y)]
  {
    if id !in g.fingers.entries then g
    else g.(fingers := Change(g.fingers, id, g.fingers.entries[id].(x := x, y := y)))
  }

  /** `deleteFinger(event)` after its cooldown, as one step: removes a known
      finger; its colour is recycled while others remain, and the last removal
      starts a new round with a fresh generator (seeded by `draw`), an
      unresolved flag and an enabled mode button. The timeout is re-armed: any
      resolve still due gets a handle newer than every earlier one. */
  function DeleteFinger(g: Game, id: Id, draw: Unit): (r: Game)
    ensures id !in g.fingers.entries ==> r == g
    ensures id in g.fingers.entries ==>
      && r.fingers == Remove(g.fingers, id)
      && r.fingers.entries == g.fingers.entries - {id}
      && r.mode == g.mode
      && (Size(r.fingers) > 0 ==>
            r.gen == Discard(g.gen, g.fingers.entries[id].color)
            && r.resolved == g.resolved && r.toggleEnabled == g.toggleEnabled)
      && (Size(r.fingers) == 0 ==>
            r.gen == NewGenerator(draw) && !r.resolved && r.toggleEnabled)
      && (r.timer.slot.Scheduled? <==> !r.resolved && Size(r.fingers) >= 2)
      && (r.timer.slot.Scheduled? ==> r.timer.slot.handle >= g.timer.issued)
      && r.timer.issued >= g.timer.issued
  {
    if id !in g.fingers.entries then g
    else
      var color := g.fingers.entries[id].color;
      var fingers := Remove(g.fingers, id);
      var g1 :=
        if Size(fingers) > 0 then g.(fingers := fingers, gen := Discard(g.gen, color))
        else g.(fingers := fingers, gen := NewGenerator(draw), resolved := false, toggleEnabled := true);
      SetMyTimeout(g1)
  }

  /** `resolve()`: marks the round resolved and applies the mode's outcome.
      Finger mode uses the first draw for the winner and leaves the generator
      untouched; Groups mode hands the draws to the shuffle and the colours. */
  function Resolve(g: Game, rand: nat -> Unit): (r: Game)
    ensures r.resolved
    ensures r == g.(resolved := true, fingers := r.fingers)
    ensures g.mode == FingerMode ==> r.fingers == ResolveFinger(g.fingers, rand(0))
    ensures g.mode == GroupsMode ==> r.fingers == ResolveGroups(g.fingers, rand)
  {
    var fingers :=
      if g.mode == FingerMode then ResolveFinger(g.fingers, rand(0))
      else ResolveGroups(g.fingers, rand);
    g.(resolved := true, fingers := fingers)
  }

  /** The timeout with handle h goes off: it resolves only if it is still the
      pending one. */
  function Fire(g: Game, h: nat, rand: nat -> Unit): (r: Game)
    ensures g.timer.slot != Timeouts.Scheduled(h) ==> r == g
    ensures g.timer.slot == Timeouts.Scheduled(h) ==>
      r == Resolve(g.(timer := Timeouts.Timer(Timeouts.Cleared, g.timer.issued)), rand)
  {
    var (fired, t) := Timeouts.Fire(g.timer, h);
    if fired then Resolve(g.(timer := t), rand) else g
  }

  /** The inputs the program reacts to. `Up` stands for pointerup and
      pointercancel alike; it carries the draw a fresh generator would use. */
  datatype Event =
    | Down(id: Id, x: real, y: real)
    | Move(id: Id, x: real, y: real)
    | Up(id: Id, draw: Unit)
    | Click
    | Timeout(handle: nat, rand: nat -> Unit)

  function Step(g: Game, e: Event): (r: Game)
  {
    match e
    case Down(id, x, y) => SetFinger(g, id, x, y)
    case Move(id, x, y) => UpdateFinger(g, id, x, y)
    case Up(id, draw) => DeleteFinger(g, id, draw)
    case Click => Toggle(g)
    case Timeout(h, rand) => Fire(g, h, rand)
  }

  function Run(g: Game, events: seq<Event>): Game
    decreases |events|
  {
    if events == [] then g else Run(Step(g, events[0]), events[1..])
  }
}

=== FILE: colors.dfy ===
/** Participant colours: the golden-angle hue generator with its LIFO recycle
    stack, and the pair of opposite team colours. Lightness and chroma are the
    same fixed constants for every generated colour, so a colour is fully
    described by its hue; the translucent white of Groups mode is the one other
    colour the program uses. */
module Colors {
  import opened Random

  datatype Color = Hue(h: real) | White

  /** 180 * (3 - sqrt 5): the shortest decimal that rounds to the double the
      program computes (about 7e-16 away from it); only its positivity
      matters to the properties below. */
  const GoldenAngle: real := 137.50776405003785

  /** `h` is the hue of the next synthesized colour; `discarded` is the recycle
      stack, whose top is its last element (Array push/pop). */
  datatype ColorGenerator = ColorGenerator(h: real, discarded: seq<Color>)

  /** `new ColorGenerator()`: a random base hue in [0, 360) and an empty stack. */
  function NewGenerator(draw: Unit): (g: ColorGenerator)
    ensures 0.0 <= g.h < 360.0
    ensures g.discarded == []
  {
    ColorGenerator(draw * 360.0, [])
  }

  /** `discard(color)`: push onto the recycle stack. */
  function Discard(g: ColorGenerator, c: Color): (r: ColorGenerator)
    ensures r.h == g.h
    ensures |r.discarded| == |g.discarded| + 1
    ensures r.discarded[..|g.discarded|] == g.discarded
    ensures r.discarded[|g.discarded|] == c
  {
    g.(discarded := g.discarded + [c])
  }

  /** `next()`: pop the recycle stack if it is non-empty, otherwise synthesize
      the colour at the current hue and advance the hue by the golden angle
      (without reducing it modulo 360). */
  function Next(g: ColorGenerator): (r: (Color, ColorGenerator))
    ensures g.discarded != [] ==> Discard(r.1, r.0) == g
    ensures g.discarded == [] ==> r.0 == Hue(g.h) && r.1.h == g.h + GoldenAngle
    ensures g.discarded == [] ==> r.1.discarded == []
    ensures r.1.h >= g.h
  {
    var n := |g.discarded|;
    if n > 0 then
      assert g.discarded == g.discarded[..n - 1] + [g.discarded[n - 1]];
      (g.discarded[n - 1], g.(discarded := g.discarded[..n - 1]))
    else
      (Hue(g.h), g.(h := g.h + GoldenAngle))
  }

  /** `oppositeColors()`: two hues 180 degrees apart from a random base. */
  function OppositeColors(draw: Unit): (r: (Color, Color))
    ensures r.0.Hue? && r.1.Hue?
    ensures 0.0 <= r.0.h < 360.0 && r.1.h == r.0.h + 180.0
    ensures r.0 != r.1
  {
    var h := draw * 360.0;
    (Hue(h), Hue(h + 180.0))
  }

  /** Recycling is undone by the next draw: discard then next hands back the
      discarded colour and restores the generator exactly. */
  lemma NextAfterDiscard(g: ColorGenerator, c: Color)
    ensures Next(Discard(g, c)) == (c, g)
  {
  }

  /** The colours of n successive `next()` calls, and the generator after them. */
  function Draws(g: ColorGenerator, n: nat): (r: (seq<Color>, ColorGenerator))
    ensures |r.0| == n
    ensures r.1.h >= g.h
    decreases n
  {
    if n == 0 then ([], g)
    else
      var (c, g1) := Next(g);
      var (cs, g2) := Draws(g1, n - 1);
      ([c] + cs, g2)
  }

  /** With nothing to recycle, the i-th draw is the hue h + i * GoldenAngle and
      the generator ends n golden angles further on. */
  lemma {:induction false} FreshHues(g: ColorGenerator, n: nat)
    requires g.discarded == []
    ensures forall i :: 0 <= i < n ==> Draws(g, n).0[i] == Hue(g.h + i as real * GoldenAngle)
    ensures Draws(g, n).1 == ColorGenerator(g.h + n as real * GoldenAngle, [])
    decreases n
  {
    if n > 0 {
      var (c, g1) := Next(g);
      FreshHues(g1, n - 1);
      var cs := Draws(g1, n - 1).0;
      forall i | 0 <= i < n
        ensures Draws(g, n).0[i] == Hue(g.h + i as real * GoldenAngle)
      {
        if i > 0 {
          assert Draws(g, n).0[i] == cs[i - 1];
        }
      }
    }
  }

  /** Freshly synthesized hues strictly increase, so no two of them coincide. */
  lemma FreshHuesIncrease(g: ColorGenerator, n: nat, i: nat, j: nat)
    requires g.discarded == []
    requires i < j < n
    ensures Draws(g, n).0[i].Hue? && Draws(g, n).0[j].Hue?
    ensures Draws(g, n).0[i].h < Draws(g, n).0[j].h
    ensures Draws(g, n).0[i] != Draws(g, n).0[j]
  {
    FreshHues(g, n);
  }

  /** Last freed, first reused: after discarding c1 then c2 onto an empty stack,
      the next three draws are c2, c1 and only then the fresh hue at h. */
  lemma LifoRecycle(g: ColorGenerator, c1: Color, c2: Color)
    requires g.discarded == []
    ensures Draws(Discard(Discard(g, c1), c2), 3).0 == [c2, c1, Hue(g.h)]
    ensures Draws(Discard(Discard(g, c1), c2), 3).1 == ColorGenerator(g.h + GoldenAngle, [])
  {
  }

  /** The hue is never wrapped into [0, 360): from any fresh generator the
      fourth synthesized hue is already at least 360. */
  lemma HueLeavesCircle(draw: Unit)
    ensures Draws(NewGenerator(draw), 4).0[3].Hue?
    ensures Draws(NewGenerator(draw), 4).0[3].h >= 360.0
  {
  }
}

=== FILE: invariants.dfy ===
/** What holds in every state the program can reach from its start, and what
    the debounced timeout guarantees across any sequence of events. */
module Invariants {
  import opened Random
  import opened Seqs
  import opened Colors
  import opened Registry
  import opened Resolution
  import opened Chooser
  import Timeouts

  /** A colour the generator has already handed out: a hue below its current h. */
  predicate Issued(c: Color, h: real) {
    c.Hue? && c.h < h
  }

  /** In Finger mode no two colours in play coincide: the fingers' colours are
      pairwise different, the recycle stack holds no duplicate and no colour a
      finger still wears, and all of them lie below the next fresh hue. */
  ghost predicate DistinctPalette(r: Registry, gen: ColorGenerator) {
    && (forall k :: k in r.entries ==> Issued(r.entries[k].color, gen.h))
    && (forall i :: 0 <= i < |gen.discarded| ==> Issued(gen.discarded[i], gen.h))
    && Distinct(gen.discarded)
    && (forall k :: k in r.entries ==> r.entries[k].color !in gen.discarded)
    && (forall k1, k2 :: k1 in r.entries && k2 in r.entries && k1 != k2 ==>
          r.entries[k1].color != r.entries[k2].color)
  }

  ghost predicate Inv(g: Game) {
    && g.timer.WellFormed()
    // a resolve is pending only for an unresolved round of two or more fingers
    && (g.timer.slot.Scheduled? ==> !g.resolved && Size(g.fingers) >= 2)
    // the mode button is enabled exactly while no finger is down
    && (g.toggleEnabled <==> Size(g.fingers) == 0)
    && (g.resolved ==> Size(g.fingers) > 0)
    && (Size(g.fingers) == 0 ==> g.gen.discarded == [])
    // only the winner of a resolved Finger round is flagged, and it is alone
    && (forall k :: k in g.fingers.entries ==>
          (g.fingers.entries[k].isWinner <==> g.resolved && g.mode == FingerMode))
    && (g.resolved && g.mode == FingerMode ==> Size(g.fingers) == 1)
    // before a Groups round resolves every finger is white
    && (!g.resolved && g.mode == GroupsMode ==>
          forall k :: k in g.fingers.entries ==> g.fingers.entries[k].color == White)
    && (g.mode == FingerMode ==> DistinctPalette(g.fingers, g.gen))
  }

  lemma InitInv(draw: Unit)
    ensures Inv(Init(draw))
  {
  }

  /** Keeping a subset of the fingers with their colours keeps the palette distinct. */
  lemma PaletteOfSubset(r: Registry, r': Registry, gen: ColorGenerator)
    requires DistinctPalette(r, gen)
    requires forall k :: k in r'.entries ==> k in r.entries && r'.entries[k].color == r.entries[k].color
    ensures DistinctPalette(r', gen)
  {
  }

  /** A new finger in Finger mode gets a colour no other finger or stacked
      colour has, whether it was recycled or freshly synthesized. */
  lemma PaletteAfterAdmit(r: Registry, gen: ColorGenerator, id: Id, x: real, y: real)
    requires DistinctPalette(r, gen)
    ensures DistinctPalette(Put(r, id, Finger(x, y, Next(gen).0, false)), Next(gen).1)
  {
  }

  /** Lifting a finger while others remain pushes a colour nobody else wears. */
  lemma PaletteAfterRemove(r: Registry, gen: ColorGenerator, id: Id)
    requires DistinctPalette(r, gen)
    requires id in r.entries
    ensures DistinctPalette(Remove(r, id), Discard(gen, r.entries[id].color))
  {
  }

  lemma SetFingerInv(g: Game, id: Id, x: real, y: real)
    requires Inv(g)
    ensures Inv(SetFinger(g, id, x, y))
  {
  }

  lemma UpdateFingerInv(g: Game, id: Id, x: real, y: real)
    requires Inv(g)
    ensures Inv(UpdateFinger(g, id, x, y))
  {
  }

  lemma DeleteFingerInv(g: Game, id: Id, draw: Unit)
    requires Inv(g)
    ensures Inv(DeleteFinger(g, id, draw))
  {
  }

  lemma ToggleInv(g: Game)
    requires Inv(g)
    ensures Inv(Toggle(g))
  {
  }

  lemma FireInv(g: Game, h: nat, rand: nat -> Unit)
    requires Inv(g)
    ensures Inv(Fire(g, h, rand))
  {
  }

  /** Every handler keeps the invariant. */
  lemma StepInv(g: Game, e: Event)
    requires Inv(g)
    ensures Inv(Step(g, e))
  {
    match e
    case Down(id, x, y) => SetFingerInv(g, id, x, y);
    case Move(id, x, y) => UpdateFingerInv(g, id, x, y);
    case Up(id, draw) => DeleteFingerInv(g, id, draw);
    case Click => ToggleInv(g);
    case Timeout(h, rand) => FireInv(g, h, rand);
  }

  lemma {:induction false} RunInv(g: Game, events: seq<Event>)
    requires Inv(g)
    ensures Inv(Run(g, events))
    decreases |events|
  {
    if events != [] {
      StepInv(g, events[0]);
      RunInv(Step(g, events[0]), events[1..]);
    }
  }

  /** Every state reachable from program start satisfies the invariant. */
  lemma ReachableInv(draw: Unit, events: seq<Event>)
    ensures Inv(Run(Init(draw), events))
  {
    InitInv(draw);
    RunInv(Init(draw), events);
  }

  /** A timeout that actually resolves always finds an unresolved round with at
      least two fingers, so resolution never meets an empty or single finger. */
  lemma FireResolvesOnlyFullRounds(g: Game, h: nat, rand: nat -> Unit)
    requires Inv(g)
    ensures Fire(g, h, rand).resolved && !g.resolved ==> Size(g.fingers) >= 2
  {
  }

  /** A Finger round that resolves keeps exactly one of its fingers, flagged as
      winner, where it was and in its colour; the generator is untouched. */
  lemma FingerRoundOneWinner(g: Game, h: nat, rand: nat -> Unit)
    requires Inv(g)
    requires g.mode == FingerMode && g.timer.slot == Timeouts.Scheduled(h)
    ensures var r := Fire(g, h, rand);
      && r.resolved
      && Size(r.fingers) == 1
      && r.gen == g.gen
      && forall k :: k in r.fingers.entries ==>
           && k in g.fingers.entries
           && r.fingers.entries[k].isWinner
           && r.fingers.entries[k].x == g.fingers.entries[k].x
           && r.fingers.entries[k].y == g.fingers.entries[k].y
           && r.fingers.entries[k].color == g.fingers.entries[k].color
  {
  }

  /** A Groups round that resolves keeps every finger where it was and splits
      them into teams of n / 2 and n - n / 2 in the two opposite colours. */
  lemma GroupsRoundTwoTeams(g: Game, h: nat, rand: nat -> Unit)
    requires g.mode == GroupsMode && g.timer.slot == Timeouts.Scheduled(h)
    ensures var r := Fire(g, h, rand);
      && r.resolved
      && r.fingers.entries.Keys == g.fingers.entries.Keys
      && |Team(r.fingers, TeamPair(rand, Size(g.fingers)).0)| == Size(g.fingers) / 2
      && |Team(r.fingers, TeamPair(rand, Size(g.fingers)).1)| == Size(g.fingers) - Size(g.fingers) / 2
  {
    GroupsTeamSizes(g.fingers, rand);
  }

  /** In Finger mode a newly placed finger never shares its colour with a
      finger already down (one that it replaces aside). */
  lemma AdmittedColorIsNew(g: Game, id: Id, x: real, y: real)
    requires Inv(g)
    requires g.mode == FingerMode && !g.resolved
    ensures forall k :: k in g.fingers.entries && k != id ==>
      g.fingers.entries[k].color != SetFinger(g, id, x, y).fingers.entries[id].color
  {
  }

  /** No event brings a cleared handle back: once h has been handed out and is
      not the pending one, it stays that way. */
  lemma StepKeepsHandleCleared(g: Game, e: Event, h: nat)
    requires g.timer.WellFormed() && h < g.timer.issued
    requires g.timer.slot != Timeouts.Scheduled(h)
    ensures Step(g, e).timer.WellFormed() && h < Step(g, e).timer.issued
    ensures Step(g, e).timer.slot != Timeouts.Scheduled(h)
  {
  }

  /** A cleared resolve never runs, whatever happens afterwards. */
  lemma {:induction false} ClearedNeverFires(g: Game, events: seq<Event>, h: nat, rand: nat -> Unit)
    requires g.timer.WellFormed() && h < g.timer.issued
    requires g.timer.slot != Timeouts.Scheduled(h)
    ensures Fire(Run(g, events), h, rand) == Run(g, events)
    decreases |events|
  {
    if events != [] {
      StepKeepsHandleCleared(g, events[0], h);
      ClearedNeverFires(Step(g, events[0]), events[1..], h, rand);
    }
  }

  /** Debounce: a new finger cancels every resolve scheduled before it, for
      good; only a timeout armed later can resolve the round. */
  lemma AdmissionCancelsEarlierResolve(g: Game, id: Id, x: real, y: real, h: nat,
                                       events: seq<Event>, rand: nat -> Unit)
    requires Inv(g) && !g.resolved
    requires h < g.timer.issued
    ensures var after := Run(SetFinger(g, id, x, y), events);
      Fire(after, h, rand) == after
  {
    ClearedNeverFires(SetFinger(g, id, x, y), events, h, rand);
  }
}

=== FILE: random.dfy ===
/** The program's only source of randomness is Math.random(). Every call to it
    becomes an explicit parameter of type Unit: a real number in [0, 1). */
module Random {

  /** One draw of Math.random(). */
  type Unit = r: real | 0.0 <= r < 1.0

  /** Math.trunc(draw * n) over the exact real product: an index into a range
      of n slots. Truncation and floor agree here because draw * n is never
      negative; the program truncates the rounded double product instead, which
      for some draws is the neighbouring index. */
  function Pick(draw: Unit, n: nat): (j: nat)
    requires n > 0
    ensures j < n
  {
    var x := draw * n as real;
    assert x < n as real by {
      assert draw * n as real < 1.0 * n as real;
    }
    x.Floor
  }

  /** A draw that makes Pick land on index j. */
  function DrawFor(j: nat, n: nat): (draw: Unit)
    requires j < n
    ensures draw * n as real == j as real
  {
    var d := j as real / n as real;
    assert d < 1.0;
    d
  }

  /** Every index in [0, n) is reachable by some draw, so a parameterised choice
      covers all of the program's random outcomes. */
  lemma PickReachesEveryIndex(j: nat, n: nat)
    requires j < n
    ensures Pick(DrawFor(j, n), n) == j
  {
  }
}

=== FILE: registry.dfy ===
/** The `fingers` Map: pointer id to finger record. A JavaScript Map iterates
    its keys in first-insertion order, and `resolve` depends on that order, so
    the registry keeps it next to the entries. */
module Registry {
  import opened Seqs
  import opened Colors

  /** A pointerId. */
  type Id = int

  /** `{x, y, color, isWinner}`; an absent isWinner reads as false. */
  datatype Finger = Finger(x: real, y: real, color: Color, isWinner: bool)

  datatype Table = Table(order: seq<Id>, entries: map<Id, Finger>) {
    /** The order lists every key exactly once. */
    ghost predicate Valid() {
      && Distinct(order)
      && forall k :: k in entries <==> k in order
    }
  }

  type Registry = t: Table | t.Valid() witness Table([], map[])

  /** `new Map()` and `fingers.clear()`. */
  const Empty: Registry := Table([], map[])

  /** `fingers.size`, which always equals the length of the key order. */
  function Size(r: Registry): (n: nat)
    ensures n == |r.order|
  {
    assert Elements(r.order) == r.entries.Keys by {
      assert r.Valid();
      forall k ensures k in Elements(r.order) <==> k in r.entries.Keys {
        assert k in r.entries <==> k in r.order;
      }
    }
    DistinctCard(r.order);
    |r.entries|
  }

  /** `fingers.set(id, f)`: a new key goes to the end of the order, an existing
      key keeps its place. */
  function Put(r: Registry, id: Id, f: Finger): (r': Registry)
    ensures r'.entries == r.entries[id := f]
    ensures id in r.entries ==> r'.order == r.order
    ensures id !in r.entries ==> r'.order == r.order + [id]
  {
    if id in r.entries then
      Table(r.order, r.entries[id := f])
    else
      var order := r.order + [id];
      assert Distinct(order) by {
        forall i, j | 0 <= i < j < |order| ensures order[i] != order[j] {
          if j == |r.order| {
            assert order[i] in r.order;
          }
        }
      }
      Table(order, r.entries[id := f])
  }

  /** `fingers.delete(id)`: the remaining keys keep their insertion order. */
  function Remove(r: Registry, id: Id): (r': Registry)
    ensures r'.entries == r.entries - {id}
    ensures forall a, b :: a != id && b != id ==>
      (Precedes(r'.order, a, b) <==> Precedes(r.order, a, b))
    ensures id in r.entries ==> Size(r') == Size(r) - 1
    ensures id !in r.entries ==> r' == r
  {
    var order := Without(r.order, id);
    WithoutDistinct(r.order, id);
    WithoutKeepsOrder(r.order, id);
    assert forall k :: k in order <==> k in Elements(order);
    assert forall k :: k in r.order <==> k in Elements(r.order);
    var r': Registry := Table(order, r.entries - {id});
    assert id in r.entries ==> r'.entries.Keys == r.entries.Keys - {id};
    r'
  }

  /** A Map holding only `id`, as after `clear()` then `set(id, f)`. */
  function Single(id: Id, f: Finger): (r: Registry)
    ensures r.entries == map[id := f]
    ensures Size(r) == 1
  {
    Table([id], map[id := f])
  }

  /** Overwriting the record of a present key in place, as the program does
      through the object it gets back from `fingers.get(id)`. */
  function Change(r: Registry, id: Id, f: Finger): (r': Registry)
    requires id in r.entries
    ensures r'.entries == r.entries[id := f]
    ensures r'.order == r.order
  {
    Put(r, id, f)
  }
}

=== FILE: resolution.dfy ===
/** `resolve()`: either keep one random winner (Finger mode) or split every
    finger into two teams of opposite colours (Groups mode). The registry part
    of the round is handled here; setting the resolved flag is the caller's. */
module Resolution {
  import opened Random
  import opened Seqs
  import opened Colors
  import opened Registry
  import opened Shuffling

  /** The mode button's text: 'Finger' or 'Groups'. */
  datatype Mode = FingerMode | GroupsMode

  /** Finger mode: the winner is `ids[trunc(random() * ids.length)]`. */
  function Winner(r: Registry, draw: Unit): (w: Id)
    requires Size(r) > 0
    ensures w in r.entries
  {
    var w := r.order[Pick(draw, |r.order|)];
    assert r.Valid();
    w
  }

  /** Finger mode: flag the winner, clear the Map and put the winner back. The
      losers' colours are dropped, not returned to the generator. With no
      finger at all the program fails on the missing winner before touching
      the Map, which leaves the registry as it was. */
  function ResolveFinger(r: Registry, draw: Unit): (r': Registry)
    ensures Size(r) > 0 ==> Size(r') == 1
    ensures forall k :: k in r'.entries ==> k in r.entries && r'.entries[k] == r.entries[k].(isWinner := true)
    ensures Size(r) == 0 ==> r' == r
  {
    if Size(r) == 0 then r
    else
      var w := Winner(r, draw);
      Single(w, r.entries[w].(isWinner := true))
  }

  /** Every finger can be the one kept: for each key some draw selects it. */
  lemma EveryFingerCanWin(r: Registry, w: Id)
    requires w in r.entries
    ensures exists draw: Unit :: ResolveFinger(r, draw).entries.Keys == {w}
  {
    assert r.Valid();
    var i :| 0 <= i < |r.order| && r.order[i] == w;
    var draw := DrawFor(i, |r.order|);
    PickReachesEveryIndex(i, |r.order|);
    assert ResolveFinger(r, draw).entries.Keys == {w};
  }

  /** `i < middleIndex` with `middleIndex = (n - 1) / 2` in real division. */
  function TeamColor(i: nat, n: nat, pair: (Color, Color)): (c: Color)
    ensures c == (if i < n / 2 then pair.0 else pair.1)
  {
    CutIsHalf(i, n);
    if (i as real) < (n as real - 1.0) / 2.0 then pair.0 else pair.1
  }

  /** The real-valued cut puts exactly the first n / 2 (floor) positions in the
      first team. */
  lemma CutIsHalf(i: nat, n: nat)
    ensures (i as real) < (n as real - 1.0) / 2.0 <==> i < n / 2
  {
  }

  /** The team colours: `oppositeColors()` is called after the shuffle has made
      its n - 1 draws. */
  function TeamPair(rand: nat -> Unit, n: nat): (pair: (Color, Color))
    ensures pair.0.Hue? && pair.1.Hue?
    ensures 0.0 <= pair.0.h < 360.0 && pair.1.h == pair.0.h + 180.0
    ensures pair.0 != pair.1
  {
    OppositeColors(rand(if n == 0 then 0 else n - 1))
  }

  /** The colouring loop from position i on: `fingers.get(ids[i]).color = ...`. */
  function PaintFrom(r: Registry, ids: seq<Id>, i: nat, pair: (Color, Color)): (r': Registry)
    requires i <= |ids|
    requires forall k :: 0 <= k < |ids| ==> ids[k] in r.entries
    ensures r'.order == r.order
    ensures r'.entries.Keys == r.entries.Keys
    ensures forall k :: k in r.entries ==> r'.entries[k] == r.entries[k].(color := r'.entries[k].color)
    decreases |ids| - i
  {
    if i == |ids| then r
    else
      var f := r.entries[ids[i]];
      PaintFrom(Change(r, ids[i], f.(color := TeamColor(i, |ids|, pair))), ids, i + 1, pair)
  }

  /** After the loop, the finger at shuffled position j wears the colour of
      position j, and fingers the loop never reached keep theirs. */
  lemma {:induction false} PaintColors(r: Registry, ids: seq<Id>, i: nat, pair: (Color, Color))
    requires i <= |ids|
    requires forall k :: 0 <= k < |ids| ==> ids[k] in r.entries
    requires Distinct(ids)
    ensures forall j :: i <= j < |ids| ==> PaintFrom(r, ids, i, pair).entries[ids[j]].color == TeamColor(j, |ids|, pair)
    ensures forall k :: k in r.entries && k !in ids[i..] ==> PaintFrom(r, ids, i, pair).entries[k] == r.entries[k]
    decreases |ids| - i
  {
    if i < |ids| {
      var f := r.entries[ids[i]];
      var r1 := Change(r, ids[i], f.(color := TeamColor(i, |ids|, pair)));
      PaintColors(r1, ids, i + 1, pair);
      assert ids[i] !in ids[i + 1..] by {
        forall j | i + 1 <= j < |ids| ensures ids[j] != ids[i] { }
      }
      forall k | k in r.entries && k !in ids[i..]
        ensures PaintFrom(r, ids, i, pair).entries[k] == r.entries[k]
      {
        assert ids[i..] == [ids[i]] + ids[i + 1..];
      }
    }
  }

  /** The shuffled key order of Groups mode. */
  function GroupOrder(r: Registry, rand: nat -> Unit): (ids: seq<Id>)
    ensures |ids| == Size(r)
    ensures Distinct(ids)
    ensures forall x :: x in ids <==> x in r.entries
  {
    var ids := Shuffled(r.order, Choices(rand, Size(r)));
    ShufflePermutes(r.order, Choices(rand, Size(r)));
    ShuffleFromDistinct(r.order, Choices(rand, Size(r)), Size(r));
    assert r.Valid();
    ids
  }

  /** Groups mode: shuffle the key order, then colour the first half with one
      opposite colour and the rest with the other. */
  function ResolveGroups(r: Registry, rand: nat -> Unit): (r': Registry)
    ensures r'.order == r.order
    ensures r'.entries.Keys == r.entries.Keys
    ensures forall k :: k in r'.entries ==>
      && r'.entries[k].color in {TeamPair(rand, Size(r)).0, TeamPair(rand, Size(r)).1}
      && r'.entries[k] == r.entries[k].(color := r'.entries[k].color)
  {
    var ids := GroupOrder(r, rand);
    var pair := TeamPair(rand, Size(r));
    PaintColors(r, ids, 0, pair);
    var r' := PaintFrom(r, ids, 0, pair);
    assert forall k :: k in r'.entries ==> r'.entries[k].color in {pair.0, pair.1} by {
      forall k | k in r'.entries ensures r'.entries[k].color in {pair.0, pair.1} {
        var j :| 0 <= j < |ids| && ids[j] == k;
      }
    }
    r'
  }

  /** The fingers wearing colour c. */
  function Team(r: Registry, c: Color): set<Id> {
    set k | k in r.entries && r.entries[k].color == c
  }

  /** A duplicate-free slice has as many elements as its length. */
  lemma SliceCard(ids: seq<Id>, lo: nat, hi: nat)
    requires lo <= hi <= |ids| && Distinct(ids)
    ensures |Elements(ids[lo..hi])| == hi - lo
  {
    var s := ids[lo..hi];
    forall p, q | 0 <= p < q < |s| ensures s[p] != s[q] {
      assert s[p] == ids[p + lo] && s[q] == ids[q + lo];
    }
    DistinctCard(s);
  }

  /** In the Groups result, a finger wears the first team colour exactly when
      its shuffled position is below n / 2. */
  lemma GroupsColorByPosition(r: Registry, rand: nat -> Unit, j: nat)
    requires j < Size(r)
    ensures ResolveGroups(r, rand).entries[GroupOrder(r, rand)[j]].color
      == (if j < Size(r) / 2 then TeamPair(rand, Size(r)).0 else TeamPair(rand, Size(r)).1)
  {
    var ids := GroupOrder(r, rand);
    PaintColors(r, ids, 0, TeamPair(rand, Size(r)));
    CutIsHalf(j, Size(r));
  }

  /** When colour c marks exactly the positions lo..hi of a duplicate-free
      enumeration of the keys, its team has hi - lo members. */
  lemma TeamIsSlice(r: Registry, ids: seq<Id>, c: Color, lo: nat, hi: nat)
    requires lo <= hi <= |ids| && Distinct(ids)
    requires forall k :: k in r.entries ==> k in ids
    requires forall j :: 0 <= j < |ids| ==> ids[j] in r.entries && (r.entries[ids[j]].color == c <==> lo <= j < hi)
    ensures |Team(r, c)| == hi - lo
  {
    forall k ensures k in Team(r, c) <==> k in Elements(ids[lo..hi]) {
      if k in r.entries {
        var j :| 0 <= j < |ids| && ids[j] == k;
        if lo <= j < hi {
          assert ids[lo..hi][j - lo] == k;
        } else {
          forall p | 0 <= p < hi - lo ensures ids[lo..hi][p] != k {
            assert ids[lo..hi][p] == ids[p + lo];
          }
        }
      }
    }
    assert Team(r, c) == Elements(ids[lo..hi]);
    SliceCard(ids, lo, hi);
  }

  /** Groups mode splits n fingers into teams of exactly n / 2 (floor) and
      n - n / 2. */
  lemma GroupsTeamSizes(r: Registry, rand: nat -> Unit)
    ensures |Team(ResolveGroups(r, rand), TeamPair(rand, Size(r)).0)| == Size(r) / 2
    ensures |Team(ResolveGroups(r, rand), TeamPair(rand, Size(r)).1)| == Size(r) - Size(r) / 2
  {
    var n := Size(r);
    var ids := GroupOrder(r, rand);
    var pair := TeamPair(rand, n);
    var r' := ResolveGroups(r, rand);
    forall j | 0 <= j < n
      ensures r'.entries[ids[j]].color == (if j < n / 2 then pair.0 else pair.1)
    {
      GroupsColorByPosition(r, rand, j);
    }
    TeamIsSlice(r', ids, pair.0, 0, n / 2);
    TeamIsSlice(r', ids, pair.1, n / 2, n);
  }
}

=== FILE: scenarios.dfy ===
/** Whole rounds played from program start. Handles are numbered in the order
    setTimeout hands them out; the first finger alone schedules nothing. */
module Scenarios {
  import opened Random
  import opened Colors
  import opened Registry
  import opened Resolution
  import opened Chooser
  import opened Invariants
  import Timeouts

  /** Running e after es is stepping through es, then through e. */
  lemma {:induction false} RunSnoc(g: Game, es: seq<Event>, e: Event)
    ensures Run(g, es + [e]) == Step(Run(g, es), e)
    decreases |es|
  {
    if es != [] {
      assert (es + [e])[1..] == es[1..] + [e];
      RunSnoc(Step(g, es[0]), es[1..], e);
    }
  }

  /** Three fingers in Finger mode: the resolve armed by the second finger is
      cancelled by the third and never runs; the one armed by the third leaves
      a single flagged winner. */
  lemma ThreeFingersOneWinner(draw: Unit, rand: nat -> Unit)
    ensures var g := Run(Init(draw), [Down(1, 10.0, 10.0), Down(2, 20.0, 20.0), Down(3, 30.0, 30.0), Timeout(0, rand)]);
      !g.resolved && Size(g.fingers) == 3
    ensures var g := Run(Init(draw), [Down(1, 10.0, 10.0), Down(2, 20.0, 20.0), Down(3, 30.0, 30.0), Timeout(0, rand), Timeout(1, rand)]);
      && g.resolved && Size(g.fingers) == 1
      && forall k :: k in g.fingers.entries ==> g.fingers.entries[k].isWinner
  {
    var g0 := Init(draw);
    var g1 := Step(g0, Down(1, 10.0, 10.0));
    var g2 := Step(g1, Down(2, 20.0, 20.0));
    var g3 := Step(g2, Down(3, 30.0, 30.0));
    assert Size(g1.fingers) == 1 && g1.timer == Timeouts.Timer(Timeouts.Cleared, 0);
    assert Size(g2.fingers) == 2 && g2.timer == Timeouts.Timer(Timeouts.Scheduled(0), 1);
    assert Size(g3.fingers) == 3 && g3.timer == Timeouts.Timer(Timeouts.Scheduled(1), 2);
    var g4 := Step(g3, Timeout(0, rand));
    assert g4 == g3;
    var g5 := Step(g4, Timeout(1, rand));
    assert g5 == Resolve(g4.(timer := Timeouts.Timer(Timeouts.Cleared, 2)), rand);
    assert g5.resolved && Size(g5.fingers) == 1;
    RunSnoc(g0, [], Down(1, 10.0, 10.0));
    RunSnoc(g0, [Down(1, 10.0, 10.0)], Down(2, 20.0, 20.0));
    RunSnoc(g0, [Down(1, 10.0, 10.0), Down(2, 20.0, 20.0)], Down(3, 30.0, 30.0));
    RunSnoc(g0, [Down(1, 10.0, 10.0), Down(2, 20.0, 20.0), Down(3, 30.0, 30.0)], Timeout(0, rand));
    RunSnoc(g0, [Down(1, 10.0, 10.0), Down(2, 20.0, 20.0), Down(3, 30.0, 30.0), Timeout(0, rand)], Timeout(1, rand));
    assert Run(g0, [Down(1, 10.0, 10.0)]) == g1 by {
      assert [] + [Down(1, 10.0, 10.0)] == [Down(1, 10.0, 10.0)];
    }
    assert Run(g0, [Down(1, 10.0, 10.0), Down(2, 20.0, 20.0)]) == g2 by {
      assert [Down(1, 10.0, 10.0)] + [Down(2, 20.0, 20.0)] == [Down(1, 10.0, 10.0), Down(2, 20.0, 20.0)];
    }
    assert Run(g0, [Down(1, 10.0, 10.0), Down(2, 20.0, 20.0), Down(3, 30.0, 30.0)]) == g3 by {
      assert [Down(1, 10.0, 10.0), Down(2, 20.0, 20.0)] + [Down(3, 30.0, 30.0)]
        == [Down(1, 10.0, 10.0), Down(2, 20.0, 20.0), Down(3, 30.0, 30.0)];
    }
    assert Run(g0, [Down(1, 10.0, 10.0), Down(2, 20.0, 20.0), Down(3, 30.0, 30.0), Timeout(0, rand)]) == g4 by {
      assert [Down(1, 10.0, 10.0), Down(2, 20.0, 20.0), Down(3, 30.0, 30.0)] + [Timeout(0, rand)]
        == [Down(1, 10.0, 10.0), Down(2, 20.0, 20.0), Down(3, 30.0, 30.0), Timeout(0, rand)];
    }
    assert Run(g0, [Down(1, 10.0, 10.0), Down(2, 20.0, 20.0), Down(3, 30.0, 30.0), Timeout(0, rand), Timeout(1, rand)]) == g5 by {
      assert [Down(1, 10.0, 10.0), Down(2, 20.0, 20.0), Down(3, 30.0, 30.0), Timeout(0, rand)] + [Timeout(1, rand)]
        == [Down(1, 10.0, 10.0), Down(2, 20.0, 20.0), Down(3, 30.0, 30.0), Timeout(0, rand), Timeout(1, rand)];
    }
  }

  /** Switching to Groups and placing four fingers. */
  function FourGroupTouches(a: Id, b: Id, c: Id, d: Id): seq<Event> {
    [Click, Down(a, 0.0, 0.0), Down(b, 0.0, 0.0), Down(c, 0.0, 0.0), Down(d, 0.0, 0.0)]
  }

  /** Four different fingers in Groups mode arm the third handle handed out. */
  lemma FourGroupFingersArmed(draw: Unit, a: Id, b: Id, c: Id, d: Id)
    requires a != b && a != c && a != d && b != c && b != d && c != d
    ensures var g := Run(Init(draw), FourGroupTouches(a, b, c, d));
      && g.mode == GroupsMode && !g.resolved && Size(g.fingers) == 4
      && g.timer.slot == Timeouts.Scheduled(2)
  {
    var g0 := Init(draw);
    var e1, e2, e3, e4 := Down(a, 0.0, 0.0), Down(b, 0.0, 0.0), Down(c, 0.0, 0.0), Down(d, 0.0, 0.0);
    var k := Step(g0, Click);
    var g1 := Step(k, e1);
    var g2 := Step(g1, e2);
    var g3 := Step(g2, e3);
    var g4 := Step(g3, e4);
    assert k.mode == GroupsMode;
    assert Size(g1.fingers) == 1;
    assert Size(g2.fingers) == 2;
    assert Size(g3.fingers) == 3;
    assert Size(g4.fingers) == 4 && g4.timer.slot == Timeouts.Scheduled(2);
    RunSnoc(g0, [], Click);
    RunSnoc(g0, [Click], e1);
    RunSnoc(g0, [Click, e1], e2);
    RunSnoc(g0, [Click, e1, e2], e3);
    RunSnoc(g0, [Click, e1, e2, e3], e4);
    assert [] + [Click] == [Click];
    assert [Click] + [e1] == [Click, e1];
    assert [Click, e1] + [e2] == [Click, e1, e2];
    assert [Click, e1, e2] + [e3] == [Click, e1, e2, e3];
    assert [Click, e1, e2, e3] + [e4] == FourGroupTouches(a, b, c, d);
  }

  /** Any armed Groups round of four fingers ends in two teams of two. */
  lemma TwoTeamsOfFour(g: Game, h: nat, rand: nat -> Unit)
    requires g.mode == GroupsMode && g.timer.slot == Timeouts.Scheduled(h) && Size(g.fingers) == 4
    ensures var r := Step(g, Timeout(h, rand));
      && r.resolved && Size(r.fingers) == 4
      && |Team(r.fingers, TeamPair(rand, 4).0)| == 2
      && |Team(r.fingers, TeamPair(rand, 4).1)| == 2
  {
    var r := Fire(g, h, rand);
    assert Step(g, Timeout(h, rand)) == r;
    GroupsRoundTwoTeams(g, h, rand);
    assert Size(r.fingers) == 4 by {
      assert r.fingers.entries.Keys == g.fingers.entries.Keys;
      assert |r.fingers.entries| == |r.fingers.entries.Keys|;
    }
  }

  /** Four fingers in Groups mode: once the last armed resolve runs, the
      fingers are split into two teams of two in opposite colours. */
  lemma FourFingersTwoTeams(draw: Unit, a: Id, b: Id, c: Id, d: Id, rand: nat -> Unit)
    requires a != b && a != c && a != d && b != c && b != d && c != d
    ensures var g := Step(Run(Init(draw), FourGroupTouches(a, b, c, d)), Timeout(2, rand));
      && g.resolved && Size(g.fingers) == 4
      && |Team(g.fingers, TeamPair(rand, 4).0)| == 2
      && |Team(g.fingers, TeamPair(rand, 4).1)| == 2
  {
    FourGroupFingersArmed(draw, a, b, c, d);
    TwoTeamsOfFour(Run(Init(draw), FourGroupTouches(a, b, c, d)), 2, rand);
  }

  /** Two fingers, one lifted before the quiescence window ends: the resolve the
      pair had armed is cancelled and the round stays unresolved. */
  lemma LiftBeforeQuiescence(draw: Unit, draw': Unit, rand: nat -> Unit)
    ensures var g := Run(Init(draw), [Down(1, 0.0, 0.0), Down(2, 0.0, 0.0), Up(2, draw'), Timeout(0, rand)]);
      && !g.resolved && Size(g.fingers) == 1
      && !g.timer.slot.Scheduled?
  {
    var g0 := Init(draw);
    var e1, e2, e3 := Down(1, 0.0, 0.0), Down(2, 0.0, 0.0), Up(2, draw');
    var g1 := Step(g0, e1);
    var g2 := Step(g1, e2);
    var g3 := Step(g2, e3);
    assert Size(g1.fingers) == 1;
    assert Size(g2.fingers) == 2 && g2.timer.slot == Timeouts.Scheduled(0);
    assert Size(g3.fingers) == 1 && !g3.resolved && !g3.timer.slot.Scheduled?;
    var g4 := Step(g3, Timeout(0, rand));
    assert g4 == g3;
    RunSnoc(g0, [], e1);
    RunSnoc(g0, [e1], e2);
    RunSnoc(g0, [e1, e2], e3);
    RunSnoc(g0, [e1, e2, e3], Timeout(0, rand));
    assert [] + [e1] == [e1];
    assert [e1] + [e2] == [e1, e2];
    assert [e1, e2] + [e3] == [e1, e2, e3];
    assert [e1, e2, e3] + [Timeout(0, rand)] == [e1, e2, e3, Timeout(0, rand)];
  }
}

=== FILE: seqs.dfy ===
/** Facts about duplicate-free sequences, used for the key order of the
    finger registry and for the shuffled id list. */
module Seqs {

  /** No element occurs twice. */
  predicate Distinct<T(==)>(s: seq<T>) {
    forall i, j :: 0 <= i < j < |s| ==> s[i] != s[j]
  }

  /** The elements of s, as a set. */
  function Elements<T(==)>(s: seq<T>): set<T> {
    set x | x in s
  }

  /** Dropping the head keeps a sequence duplicate-free, and the head does not
      occur in the rest. */
  lemma DistinctTail<T>(s: seq<T>)
    requires s != [] && Distinct(s)
    ensures Distinct(s[1..])
    ensures s[0] !in s[1..]
  {
  }

  /** A duplicate-free sequence has as many elements as its length. */
  lemma {:induction false} DistinctCard<T>(s: seq<T>)
    requires Distinct(s)
    ensures |Elements(s)| == |s|
  {
    if s != [] {
      var t := s[1..];
      DistinctTail(s);
      DistinctCard(t);
      assert Elements(s) == {s[0]} + Elements(t) by {
        assert s == [s[0]] + t;
      }
    }
  }

  /** s with every occurrence of x filtered out (what Map.delete does to the
      key order of a JavaScript Map). */
  function Without<T(==)>(s: seq<T>, x: T): (r: seq<T>)
    ensures Elements(r) == Elements(s) - {x}
    ensures x !in s ==> r == s
  {
    if s == [] then []
    else
      assert s == [s[0]] + s[1..];
      if s[0] == x then Without(s[1..], x)
      else
        var rest := Without(s[1..], x);
        assert Elements([s[0]] + rest) == {s[0]} + Elements(rest);
        [s[0]] + rest
  }

  /** Filtering keeps a sequence duplicate-free. */
  lemma {:induction false} WithoutDistinct<T>(s: seq<T>, x: T)
    requires Distinct(s)
    ensures Distinct(Without(s, x))
  {
    if s != [] {
      DistinctTail(s);
      WithoutDistinct(s[1..], x);
      var rest := Without(s[1..], x);
      if s[0] != x {
        assert s[0] !in Elements(rest);
        var r := [s[0]] + rest;
        forall i, j | 0 <= i < j < |r| ensures r[i] != r[j] {
          if i == 0 {
            assert r[j] == rest[j - 1];
          } else {
            assert r[i] == rest[i - 1] && r[j] == rest[j - 1];
          }
        }
      }
    }
  }

  /** a occurs before b in s: the relative order JavaScript Maps keep. */
  predicate Precedes<T(==)>(s: seq<T>, a: T, b: T) {
    exists i, j :: 0 <= i < j < |s| && s[i] == a && s[j] == b
  }

  /** Precedence in a sequence with a head element. */
  lemma PrecedesCons<T>(h: T, t: seq<T>, a: T, b: T)
    ensures Precedes([h] + t, a, b) <==> (h == a && b in t) || Precedes(t, a, b)
  {
    var s := [h] + t;
    if Precedes(s, a, b) {
      var i, j :| 0 <= i < j < |s| && s[i] == a && s[j] == b;
      if i > 0 {
        assert t[i - 1] == a && t[j - 1] == b;
      } else {
        assert t[j - 1] == b;
      }
    }
    if h == a && b in t {
      var j :| 0 <= j < |t| && t[j] == b;
      assert s[0] == a && s[j + 1] == b;
    }
    if Precedes(t, a, b) {
      var i, j :| 0 <= i < j < |t| && t[i] == a && t[j] == b;
      assert s[i + 1] == a && s[j + 1] == b;
    }
  }

  /** Filtering x out keeps, and only keeps, the relative order of the other
      elements. */
  lemma {:induction false} WithoutPrecedes<T>(s: seq<T>, x: T, a: T, b: T)
    requires a != x && b != x
    ensures Precedes(Without(s, x), a, b) <==> Precedes(s, a, b)
  {
    if s != [] {
      var t := s[1..];
      assert s == [s[0]] + t;
      PrecedesCons(s[0], t, a, b);
      WithoutPrecedes(t, x, a, b);
      if s[0] != x {
        var rest := Without(t, x);
        PrecedesCons(s[0], rest, a, b);
        assert b in rest <==> b in Elements(rest);
        assert b in t <==> b in Elements(t);
      }
    }
  }

  /** The pairwise form of `WithoutPrecedes` for every two surviving elements. */
  lemma WithoutKeepsOrder<T>(s: seq<T>, x: T)
    ensures forall a, b :: a != x && b != x ==>
      (Precedes(Without(s, x), a, b) <==> Precedes(s, a, b))
  {
    forall a, b | a != x && b != x
      ensures Precedes(Without(s, x), a, b) <==> Precedes(s, a, b)
    {
      WithoutPrecedes(s, x, a, b);
    }
  }
}

=== FILE: shuffle.dfy ===
/** `shuffle(array)`: the Fisher-Yates loop. For i from n - 1 down to 1 it
    swaps a[i] with a[j] where j = trunc(random() * (i + 1)). The random
    indices are a parameter: choices[i] is the j drawn when the loop counter is i. */
module Shuffling {
  import opened Random
  import opened Seqs

  /** One choice per loop counter, each within [0, i]; choices[0] is never used. */
  predicate ValidChoices(choices: seq<nat>, n: nat) {
    |choices| == n && forall i :: 0 < i < n ==> choices[i] <= i
  }

  /** The destructuring swap `[a[i], a[j]] = [a[j], a[i]]`. */
  function Swap<T>(a: seq<T>, i: nat, j: nat): (r: seq<T>)
    requires i < |a| && j < |a|
    ensures |r| == |a|
    ensures r[i] == a[j] && r[j] == a[i]
    ensures forall k :: 0 <= k < |a| && k != i && k != j ==> r[k] == a[k]
    ensures multiset(r) == multiset(a)
  {
    a[i := a[j]][j := a[i]]
  }

  /** Swapping two positions keeps a sequence duplicate-free. */
  lemma SwapDistinct<T>(a: seq<T>, i: nat, j: nat)
    requires i < |a| && j < |a|
    requires Distinct(a)
    ensures Distinct(Swap(a, i, j))
  {
  }

  /** The loop iterations for counters i - 1 down to 1, applied to a. */
  function ShuffleFrom<T>(a: seq<T>, choices: seq<nat>, i: nat): (r: seq<T>)
    requires i <= |a| && ValidChoices(choices, |a|)
    ensures |r| == |a|
    ensures multiset(r) == multiset(a)
    decreases i
  {
    if i <= 1 then a
    else ShuffleFrom(Swap(a, i - 1, choices[i - 1]), choices, i - 1)
  }

  /** The result of `shuffle(xs)` under the given random choices. */
  function Shuffled<T>(xs: seq<T>, choices: seq<nat>): seq<T>
    requires ValidChoices(choices, |xs|)
  {
    ShuffleFrom(xs, choices, |xs|)
  }

  /** Whatever the random choices, shuffling permutes its input: same length,
      same multiset, and so the same elements. */
  lemma ShufflePermutes<T>(xs: seq<T>, choices: seq<nat>)
    requires ValidChoices(choices, |xs|)
    ensures |Shuffled(xs, choices)| == |xs|
    ensures multiset(Shuffled(xs, choices)) == multiset(xs)
    ensures forall x :: x in Shuffled(xs, choices) <==> x in xs
  {
    var r := Shuffled(xs, choices);
    forall x ensures x in r <==> x in xs {
      assert x in r <==> x in multiset(r);
      assert x in xs <==> x in multiset(xs);
    }
  }

  /** A duplicate-free input (the distinct keys of a Map) stays duplicate-free. */
  lemma {:induction false} ShuffleFromDistinct<T>(a: seq<T>, choices: seq<nat>, i: nat)
    requires i <= |a| && ValidChoices(choices, |a|)
    requires Distinct(a)
    ensures Distinct(ShuffleFrom(a, choices, i))
    decreases i
  {
    if i > 1 {
      SwapDistinct(a, i - 1, choices[i - 1]);
      ShuffleFromDistinct(Swap(a, i - 1, choices[i - 1]), choices, i - 1);
    }
  }

  /** The loop as the program writes it, over a sequence instead of an array. */
  method Shuffle<T>(xs: seq<T>, choices: seq<nat>) returns (a: seq<T>)
    requires ValidChoices(choices, |xs|)
    ensures a == Shuffled(xs, choices)
    ensures multiset(a) == multiset(xs)
  {
    a := xs;
    var i := |xs| - 1;
    while i > 0
      invariant 0 <= i + 1 <= |xs|
      invariant |a| == |xs|
      invariant multiset(a) == multiset(xs)
      invariant ShuffleFrom(a, choices, i + 1) == Shuffled(xs, choices)
    {
      var j := choices[i];
      a := a[i := a[j]][j := a[i]];
      i := i - 1;
    }
  }

  /** The index the program draws for loop counter i of a list of length n:
      the (n - 1 - i)-th call of random(), scaled to i + 1 slots. */
  function ChoiceAt(rand: nat -> Unit, n: nat, i: nat): (j: nat)
    requires i < n
    ensures j <= i
  {
    if i == 0 then 0 else Pick(rand(n - 1 - i), i + 1)
  }

  /** The random indices the program draws when shuffling a list of length n. */
  function Choices(rand: nat -> Unit, n: nat): (choices: seq<nat>)
    ensures ValidChoices(choices, n)
  {
    seq(n, i requires 0 <= i < n => ChoiceAt(rand, n, i))
  }
}

=== FILE: timeouts.dfy ===
/** The `timeout` variable with setTimeout/clearTimeout, reduced to what the
    program relies on: at most one resolve is pending, identified by the handle
    setTimeout returned, and a cleared handle never fires. Real time is not
    modelled; a pending resolve fires when a Fire step names its handle. */
module Timeouts {

  datatype Slot = Cleared | Scheduled(handle: nat)

  /** The pending slot and the number of handles setTimeout has handed out. */
  datatype Timer = Timer(slot: Slot, issued: nat) {
    /** A pending handle is one that was handed out. */
    predicate WellFormed() {
      slot.Scheduled? ==> slot.handle < issued
    }
  }

  /** Nothing scheduled, no handle handed out yet. */
  const Start: Timer := Timer(Cleared, 0)

  /** `clearTimeout(timeout)`, then `setTimeout(resolve, 2500)` when `due`. */
  function Arm(t: Timer, due: bool): (r: Timer)
    ensures r.WellFormed()
    ensures r.issued >= t.issued
    ensures r.slot.Scheduled? <==> due
    ensures r.slot.Scheduled? ==> r.slot.handle >= t.issued
  {
    if due then Timer(Scheduled(t.issued), t.issued + 1)
    else t.(slot := Cleared)
  }

  /** The timer with handle h goes off: it runs its callback only if it is the
      pending one, and then nothing is pending any more. */
  function Fire(t: Timer, h: nat): (r: (bool, Timer))
    ensures r.0 <==> t.slot == Scheduled(h)
    ensures r.0 ==> r.1 == Timer(Cleared, t.issued)
    ensures !r.0 ==> r.1 == t
  {
    if t.slot == Scheduled(h) then (true, t.(slot := Cleared)) else (false, t)
  }
}
